=== FILE: README.md ===
# Profiler model

A Dafny model of the profiling layer of a parallel web crawler. The profiler
wraps a service object in a dynamic proxy. The proxy forwards every call to
the object. For methods annotated `@Profiled`, it also times the call with the
profiler's clock and records the duration in the profiler's state. Later, the
profiler writes a report to a writer or appends it to a file.

Reflection, proxies, the clock and I/O are replaced by plain data:

- `Lang` holds the Java vocabulary:
  - a `Method` descriptor carrying its annotations;
  - an `Interface` listing the methods it declares and those it inherits;
  - a `Delegate`: its concrete class plus a function that says how `Method.invoke` on it turns out (`Returned`, `TargetThrew` or `AccessDenied`);
  - the exceptions involved;
  - `Outcome` (`Ok(value)` or `Threw(exception)`), which is what a caller sees.
- `Clocks` gives the clock as an infinite trace of integer instants in nanoseconds. `at(k)` is the k-th reading, and `used` counts the readings taken so far. `Between` is `Duration.between`: the signed distance, never clamped.
- `Io` models a writer as the text written so far plus a budget. The budget is how many more characters the sink accepts before a write throws `IOException`. The file system is a map from path to contents.
- `Interceptor` is `ProfilingMethodInterceptor`. It holds the annotation scan and `Invoke`, the handler. The profiler's state is modelled as the log of its `record(delegateClass, method, duration)` calls.
- `Profiler` is `ProfilerImpl`:
  - construction reads the clock once, for the start time;
  - `wrap` validates the interface and builds the proxy;
  - `CallProxy` dispatches a proxy call to the handler;
  - the two `writeData` overloads write the report.

  A profiler carries an identity `id`, and a proxy holds its interface, its delegate and the `owner` id of the profiler that made it. A call on a proxy is made against its owner and works on that profiler's clock and log, so all proxies of one profiler share one state.
- `Sessions` covers a session: a sequence of calls on proxies of one profiler, and lemmas about what callers see and what the log holds afterwards.

Two details of the code are reproduced as written:

- The `IllegalArgumentException` message joins the interface name and "doesn't have profiled methods." with no space between them.
- An `IllegalAccessException` on the profiled path becomes a `RuntimeException` without a cause. On the unprofiled path it becomes a `RuntimeException` whose cause is that `IllegalAccessException`.

Three further choices follow the code:

- A negative duration is not clamped to zero: a `record` call is made with the negative duration as it is.
- An `IOException` while appending the report to a file is caught and printed, not surfaced to the caller.
- The state is modelled as the log of `record` calls. Per-key summation happens in code that is not part of this model.

## Model

| member | source | states |
|---|---|---|
| Interceptor.IsMethodProfiled | starter/webcrawler/src/main/java/com/udacity/webcrawler/profiler/ProfilingMethodInterceptor.java:61-71 | The scan of a method's annotations returns true iff at least one annotation is `@Profiled`. |
| Interceptor.Invoke | starter/webcrawler/src/main/java/com/udacity/webcrawler/profiler/ProfilingMethodInterceptor.java:27-59 | The delegate's return value, or its own exception, reaches the caller unchanged on both paths. An `IllegalAccessException` becomes a `RuntimeException`, which carries it as its cause only off the profiled path. An unprofiled call leaves clock and state untouched. A profiled call reads the clock exactly twice and appends exactly one record `(delegate class, method, second reading − first reading)`, whatever the delegate did. |
| Interceptor.OutcomeIgnoresShared | starter/webcrawler/src/main/java/com/udacity/webcrawler/profiler/ProfilingMethodInterceptor.java:35-58 | What the caller sees depends only on the delegate. Two different clocks or states give the same result or exception. |
| Interceptor.RecordsIffProfiled | starter/webcrawler/src/main/java/com/udacity/webcrawler/profiler/ProfilingMethodInterceptor.java:35-57 | A call grows the log by one record if the called method is profiled, by none otherwise, and changes it iff the method is profiled. |
| Profiler.New | starter/webcrawler/src/main/java/com/udacity/webcrawler/profiler/ProfilerImpl.java:33-36 | A null clock throws `NullPointerException`. Otherwise the profiler has the given identity, the start time is the clock's next reading, that reading is consumed, and the state starts empty. |
| Profiler.Wrap | starter/webcrawler/src/main/java/com/udacity/webcrawler/profiler/ProfilerImpl.java:40-65 | A null interface throws `NullPointerException`. `IllegalArgumentException` (with the exact message) is thrown iff no method the interface declares itself is profiled; inherited methods do not count. Past that check, a null delegate throws `NullPointerException`. Otherwise the result is a proxy for exactly that interface and delegate, owned by the profiler `wrap` was called on. |
| Io.WriteAll | starter/webcrawler/src/main/java/com/udacity/webcrawler/profiler/ProfilerImpl.java:83-86 | Successive writes append the concatenation of the chunks if it fits the sink. If it does not, exactly the part that fits is appended and an `IOException` propagates. An exception occurs iff the text does not fit. |
| Profiler.WriteData | starter/webcrawler/src/main/java/com/udacity/webcrawler/profiler/ProfilerImpl.java:82-87 | The writer receives `"Run at " + formatted start time + separator + state text + separator`, after what it already held. If the sink fails, it receives exactly the prefix that fit, and an `IOException` propagates iff the report did not fit (the formatter taken as total). |
| Profiler.WriteDataToPath | starter/webcrawler/src/main/java/com/udacity/webcrawler/profiler/ProfilerImpl.java:68-79 | A null path, or a file that cannot be opened, leaves every file unchanged. Otherwise the file is created if absent and ends up holding its old contents (empty if absent) followed by the report, or the prefix written before a failure. No other file changes, and no `IOException` reaches the caller. |
| Sessions.Run | starter/webcrawler/src/main/java/com/udacity/webcrawler/profiler/ProfilerImpl.java:60-63 | A sequence of calls on proxies that one profiler made gives one outcome per call and leaves that profiler's identity. It keeps the start time, reads the clock twice per profiled call, and only appends to the log. The added records' keys are exactly the profiled calls' `(delegate class, method)` pairs, in call order. |
| Sessions.RunIsTransparent | starter/webcrawler/src/main/java/com/udacity/webcrawler/profiler/ProfilingMethodInterceptor.java:38-54 | In any session, every caller sees exactly what calling the delegate directly would give (its value or its own exception). The only exception is an `IllegalAccessException`, which surfaces as a `RuntimeException`. |
| Sessions.RunRecordsOnlyProfiledCalls | starter/webcrawler/src/main/java/com/udacity/webcrawler/profiler/ProfilingMethodInterceptor.java:35-57 | Every record a session adds names a profiled method that was actually called, keyed by the concrete class of the delegate it was called on. An unprofiled method never appears in the records a session adds. |
| Sessions.MonotoneClockBoundsDurations | starter/webcrawler/src/main/java/com/udacity/webcrawler/profiler/ProfilingMethodInterceptor.java:36-46 | In a sequential session whose profiled calls do not overlap, with a clock that never goes backwards, every recorded duration is non-negative. A session with no profiled call records no time; otherwise the sum never exceeds the time between the session's first and last clock readings (the last being the end reading of its last profiled call). |
| Sessions.BackwardClockRecordsNegativeDuration | starter/webcrawler/src/main/java/com/udacity/webcrawler/profiler/ProfilingMethodInterceptor.java:44-46 | For any profiled call on an owned proxy whose clock is set back between the two readings, the one record it adds carries the negative difference of the readings. Nothing clamps it. |
| Sessions.BackwardClockExample | starter/webcrawler/src/main/java/com/udacity/webcrawler/profiler/ProfilingMethodInterceptor.java:44-46 | Right after construction, with a clock that loses 7 ns per reading, a profiled call leaves exactly one record, of −7 ns. |
| Sessions.ProxiesShareOneLog | starter/webcrawler/src/main/java/com/udacity/webcrawler/profiler/ProfilerImpl.java:60-63 | Profiled calls on two proxies that one profiler made, over different delegates, land in that profiler's one log, in call order, each keyed by its own delegate's class and timed by consecutive readings of the one shared clock. |
| Sessions.ReportHeaderIsFixed | starter/webcrawler/src/main/java/com/udacity/webcrawler/profiler/ProfilerImpl.java:30-35 | No session changes the start time: after any session on a profiler's proxies, its report still opens with `"Run at "` and the same formatted start time. |
| Sessions.ConstructionFixesReportHeader | starter/webcrawler/src/main/java/com/udacity/webcrawler/profiler/ProfilerImpl.java:33-36 | For a profiler built from a clock, after any session on its proxies, the report opens with `"Run at "` and the formatted instant the clock gave at construction. |
| Sessions.ConstructionRecordsOnlyProfiledCalls | starter/webcrawler/src/main/java/com/udacity/webcrawler/profiler/ProfilingMethodInterceptor.java:35-57 | For a profiler built from a clock, after any session on its proxies, every record in its state names a profiled method that was called, keyed by that call's delegate class. An unprofiled method never appears in the state. |
| Sessions.AppendKeepsEarlierReports | starter/webcrawler/src/main/java/com/udacity/webcrawler/profiler/ProfilerImpl.java:72 | Writing two reports to one path keeps the file's earlier contents, followed by the first report and then the second. |

## Left out

- Dynamic proxy creation, class loaders and annotation reflection are replaced by the descriptors above. The checks `Proxy.newProxyInstance` makes on its own (that the class is an interface, class-loader visibility) are not modelled.
- `Method.invoke` failures other than `IllegalAccessException` (a wrong argument count, for example) are not modelled. A proxy always passes the interface method's own arguments.
- The interceptor's own `requireNonNull(clock)` is not modelled separately. It always receives the profiler's clock, which construction has already checked.
- The state's internals are not part of this model: per-key accumulation, thread safety and the text it writes. That text is a parameter (`render`) applied to the log.
- RFC 1123 timestamp formatting (section 5.2.14 of RFC 1123) is a parameter (`format`) applied to the start instant. `System.lineSeparator()` is a parameter (`sep`).
- UTF-8 encoding of the file, and the stack trace printed on a swallowed `IOException`, are console and byte-level I/O and are not modelled.
- Concurrency is not modelled. Worker threads may call proxies at the same time, but the handler adds no synchronisation, and the safety of the shared state lives in code that is not part of this model.
- Re-entrant calls are not modelled. The delegate is a pure function, so it cannot call another proxy between the two clock reads. For the same reason, "the start is read before the delegate runs" is only reflected in which reading is used as the start.
- `java.time.Duration` overflow (`ArithmeticException`) is not modelled. Instants and durations are unbounded integers.
- The driver (`WebCrawlerMain`) is not modelled. It chooses between `writeData(writer)` on standard output and `writeData(path)`.
- Interceptor.Invoke: the state's `record` call is taken to accept every duration and never throw. An exception from `record` inside the `finally` block would replace the delegate's outcome; the transparency the contract states holds only under that assumption.
- Profiler.WriteDataToPath: the `BufferedWriter`'s buffering and the flush in `close()` are folded into the budget. A fault that surfaces only at `close()` is modelled as the same write failure, and the prefix kept is the part the budget accepted, not what the buffer had flushed.
- Profiler.WriteData: the formatter `format` is taken to be total. Java's RFC 1123 formatter prints the year in exactly four digits and throws `DateTimeException` for a start time outside the years 0000–9999; that exception is not modelled and would propagate before anything is written.
- Profiler.WriteDataToPath: the formatter is taken to be total, as for `WriteData`. A `DateTimeException` would escape the `IOException` catch and leave the file created but unchanged. Unchecked exceptions from opening the file (`SecurityException`, `ReadOnlyFileSystemException`) are not modelled either; they would propagate too.
- Profiler.New: a profiler's identity is a parameter. Distinct profilers are assumed to have distinct ids, as distinct Java objects do; nothing in the model prevents two profilers sharing one, and then a proxy of one is accepted against the other.

=== FILE: clock.dfy ===
/**
 A `java.time.Clock` as an explicit trace: `at(k)` is the instant, in
 nanoseconds, that the k-th call of `instant()` reports, and `used` counts the
 calls made so far. Nothing forces the trace to be monotone: a clock may be
 set back between two reads.
 */
module Clocks {

  type Instant = int

  datatype Clock = Clock(at: nat -> Instant, used: nat)

  datatype Reading = Reading(instant: Instant, clock: Clock)

  /** `clock.instant()`: report the next instant of the trace and consume it. */
  function Read(c: Clock): Reading
  {
    Reading(c.at(c.used), Clock(c.at, c.used + 1))
  }

  /** The trace never goes backwards. */
  ghost predicate Monotone(c: Clock) {
    forall i: nat, j: nat :: i <= j ==> c.at(i) <= c.at(j)
  }

  /** `Duration.between(start, end)`: the signed distance, never clamped. */
  function Between(start: Instant, end: Instant): int
  {
    end - start
  }
}

=== FILE: interceptor.dfy ===
/**
 The invocation handler behind every proxy: it forwards each call to the
 delegate and, for methods annotated `@Profiled`, times the call with the
 profiler's clock and records the duration in the profiler's state.
 */
module Interceptor {
  import opened Lang
  import opened Clocks

  /** One `state.record(delegate.getClass(), method, duration)` call. */
  datatype Record = Record(delegateClass: string, profiledMethod: Method, duration: int)

  /** What every proxy of one profiler shares: its clock and its state, the
      latter as the log of the record calls made on it. */
  datatype Shared = Shared(clock: Clock, log: seq<Record>)

  /** The result of one intercepted call: what the caller sees, and the shared
      clock and state afterwards. */
  datatype Step = Step(outcome: Outcome<Value>, shared: Shared)

  /** At least one of the method's annotations is `@Profiled`. */
  predicate IsProfiled(m: Method) {
    exists i :: 0 <= i < |m.annotations| && m.annotations[i].Profiled?
  }

  /** The handler's scan of `method.getAnnotations()`, stopping at the first
      `@Profiled`. */
  method IsMethodProfiled(m: Method) returns (isProfiled: bool)
    ensures isProfiled <==> IsProfiled(m)
  {
    isProfiled := false;
    var i := 0;
    while i < |m.annotations|
      invariant 0 <= i <= |m.annotations|
      invariant isProfiled <==> exists j :: 0 <= j < i && m.annotations[j].Profiled?
    {
      if m.annotations[i] == Profiled {
        isProfiled := true;
        break;
      }
      i := i + 1;
    }
  }

  /** The two catch clauses around `method.invoke`: a target exception is
      unwrapped and rethrown as it is; an `IllegalAccessException` becomes a
      `RuntimeException`, whose cause is kept only off the profiled path. */
  function Unwrap(inv: Invocation, profiled: bool): Outcome<Value> {
    match inv
    case Returned(v) => Ok(v)
    case TargetThrew(e) => Threw(e)
    case AccessDenied(msg) =>
      Threw(RuntimeException(if profiled then None else Some(IllegalAccessException(msg))))
  }

  /** `invoke(proxy, method, args)`. On the profiled path the clock is read
      before the delegate runs, and again in the `finally` block after it,
      however it ended; the record is made there too. */
  function Invoke(s: Shared, d: Delegate, m: Method, args: seq<Value>): (r: Step)
    // the delegate's value or own exception reaches the caller unchanged
    ensures !d.respond(m, args).AccessDenied? ==> r.outcome == Direct(d.respond(m, args))
    // an IllegalAccessException surfaces as a RuntimeException, which carries
    // it as its cause only off the profiled path
    ensures d.respond(m, args).AccessDenied? ==>
      r.outcome.Threw? && r.outcome.exception.RuntimeException? &&
      (r.outcome.exception.cause.Some? <==> !IsProfiled(m)) &&
      (!IsProfiled(m) ==>
        r.outcome.exception.cause.value == IllegalAccessException(d.respond(m, args).message))
    // an unprofiled call neither reads the clock nor records anything
    ensures !IsProfiled(m) ==> r.shared == s
    // a profiled call reads the clock exactly twice and appends exactly one
    // record, keyed by the delegate's class, whatever the delegate did
    ensures IsProfiled(m) ==> r.shared.clock == Clock(s.clock.at, s.clock.used + 2)
    ensures IsProfiled(m) ==>
      r.shared.log == s.log + [Record(d.concreteClass, m, s.clock.at(s.clock.used + 1) - s.clock.at(s.clock.used))]
  {
    if IsProfiled(m) then
      var start := Read(s.clock);
      var inv := d.respond(m, args);
      var end := Read(start.clock);
      var duration := Between(start.instant, end.instant);
      Step(Unwrap(inv, true), Shared(end.clock, s.log + [Record(d.concreteClass, m, duration)]))
    else
      Step(Unwrap(d.respond(m, args), false), s)
  }

  /** What the caller sees depends on the delegate alone: neither the clock
      nor the recorded state can change a result or an exception. */
  lemma OutcomeIgnoresShared(s1: Shared, s2: Shared, d: Delegate, m: Method, args: seq<Value>)
    ensures Invoke(s1, d, m, args).outcome == Invoke(s2, d, m, args).outcome
  {
  }

  /** Whether a call is timed depends on the called method's own annotations,
      not on the delegate or the arguments. */
  lemma RecordsIffProfiled(s: Shared, d: Delegate, m: Method, args: seq<Value>)
    ensures |Invoke(s, d, m, args).shared.log| == |s.log| + (if IsProfiled(m) then 1 else 0)
    ensures IsProfiled(m) <==> Invoke(s, d, m, args).shared.log != s.log
  {
  }
}

=== FILE: io.dfy ===
/**
 Character output as plain data. A `Writer` is the text written so far plus a
 budget: how many more characters the underlying sink accepts before a write
 throws an `IOException`. Files are a map from path to contents.
 */
module Io {
  import opened Lang

  datatype Budget = Unlimited | FailsAfter(room: nat, message: string)

  datatype Writer = Writer(text: string, budget: Budget)

  /** The writer after a write, and the `IOException` the write threw, if any. */
  datatype Written = Written(writer: Writer, error: Option<Throwable>)

  type FileSystem = map<string, string>

  /** Whether `n` more characters fit in the budget. */
  predicate Accepts(b: Budget, n: nat) {
    b.Unlimited? || n <= b.room
  }

  /** The part of `s` that reaches the sink before the budget runs out. */
  function Prefix(b: Budget, s: string): (p: string)
    ensures p <= s
    ensures p == s <==> Accepts(b, |s|)
  {
    if Accepts(b, |s|) then s else s[..b.room]
  }

  /** The budget left after `n` characters were accepted. */
  function Spend(b: Budget, n: nat): Budget
    requires Accepts(b, n)
  {
    match b
    case Unlimited => Unlimited
    case FailsAfter(room, msg) => FailsAfter(room - n, msg)
  }

  /** All chunks, one after the other. */
  function Concat(chunks: seq<string>): string
    decreases |chunks|
  {
    if |chunks| == 0 then [] else chunks[0] + Concat(chunks[1..])
  }

  /** `writer.write(s)`: appends `s`, or as much of it as fits and then throws. */
  function Write(w: Writer, s: string): (r: Written)
    ensures r.writer.text == w.text + Prefix(w.budget, s)
    ensures r.error.None? <==> Accepts(w.budget, |s|)
    ensures r.error.Some? ==> r.error.value.IOException?
  {
    if Accepts(w.budget, |s|) then
      Written(Writer(w.text + s, Spend(w.budget, |s|)), None)
    else
      Written(Writer(w.text + s[..w.budget.room], FailsAfter(0, w.budget.message)),
              Some(IOException(w.budget.message)))
  }

  /** Successive `write` calls; the first one that throws ends the sequence,
      since its exception propagates out of the caller. */
  function WriteAll(w: Writer, chunks: seq<string>): (r: Written)
    ensures r.writer.text == w.text + Prefix(w.budget, Concat(chunks))
    ensures r.error.None? <==> Accepts(w.budget, |Concat(chunks)|)
    ensures r.error.Some? ==> r.error.value.IOException?
    decreases |chunks|
  {
    if |chunks| == 0 then
      Written(w, None)
    else
      var first := Write(w, chunks[0]);
      if first.error.Some? then
        PrefixOfFirstChunk(w.budget, chunks[0], Concat(chunks[1..]));
        first
      else
        var rest := WriteAll(first.writer, chunks[1..]);
        PrefixAfterFirstChunk(w.budget, chunks[0], Concat(chunks[1..]));
        Written(rest.writer, rest.error)
  }

  /** A budget too small for the first chunk cuts the whole text inside it. */
  lemma PrefixOfFirstChunk(b: Budget, first: string, rest: string)
    requires !Accepts(b, |first|)
    ensures Prefix(b, first + rest) == Prefix(b, first)
  {
  }

  /** Once the first chunk fits, the rest is cut by what remains of the budget. */
  lemma PrefixAfterFirstChunk(b: Budget, first: string, rest: string)
    requires Accepts(b, |first|)
    ensures first + Prefix(Spend(b, |first|), rest) == Prefix(b, first + rest)
    ensures Accepts(Spend(b, |first|), |rest|) <==> Accepts(b, |first + rest|)
  {
  }
}

=== FILE: lang.dfy ===
/**
 The Java-level vocabulary the profiler works with, replaced by plain data:
 reflection's `Method` becomes a descriptor carrying its annotations, an
 interface becomes the list of methods it declares (and those it inherits),
 and a delegate object becomes its concrete class plus a function that says
 how `Method.invoke` on it turns out.
 */
module Lang {

  datatype Option<+T> = None | Some(value: T)

  /** The exceptions that matter to the profiler. `App` stands for anything the
      delegate's own code throws; its identity is all the profiler may touch. */
  datatype Throwable =
    | App(className: string, message: string)
    | NullPointerException
    | IllegalArgumentException(message: string)
    | IllegalAccessException(message: string)
    | RuntimeException(cause: Option<Throwable>)
    | IOException(message: string)

  /** What a Java call does: return a value or throw. */
  datatype Outcome<+T> = Ok(value: T) | Threw(exception: Throwable)

  /** An opaque object reference passed to or returned from a delegate method. */
  datatype Value = Null | Ref(id: nat)

  datatype Annotation = Profiled | Other(typeName: string)

  /** A `java.lang.reflect.Method`: its name and the annotations present on it. */
  datatype Method = Method(name: string, annotations: seq<Annotation>)

  /** A `Class<T>` object for an interface: `declared` is what
      `getDeclaredMethods()` returns, `inherited` the methods it gets from
      super-interfaces, which `getDeclaredMethods()` does not list. */
  datatype Interface = Interface(name: string, declared: seq<Method>, inherited: seq<Method>)

  /** How one reflective `Method.invoke(delegate, args)` turns out: the target
      returned, the target threw (Java wraps this in an
      `InvocationTargetException`), or reflection refused access with an
      `IllegalAccessException` carrying `message`. */
  datatype Invocation =
    | Returned(value: Value)
    | TargetThrew(target: Throwable)
    | AccessDenied(message: string)

  /** A delegate object: its runtime class (`delegate.getClass()`) and what
      invoking a method with given arguments on it does. */
  datatype Delegate = Delegate(concreteClass: string, respond: (Method, seq<Value>) -> Invocation)

  /** The outcome a caller of the delegate would see when calling it directly:
      its return value, or the exception its own code threw. */
  function Direct(inv: Invocation): Outcome<Value>
    requires !inv.AccessDenied?
  {
    match inv
    case Returned(v) => Ok(v)
    case TargetThrew(e) => Threw(e)
  }
}

=== FILE: profiler.dfy ===
/**
 The profiler itself: construction from a clock, wrapping a delegate in a
 proxy, dispatching proxy calls to the shared handler state, and writing the
 report to a writer or appending it to a file.
 */
module Profiler {
  import opened Lang
  import opened Clocks
  import opened Io
  import opened Interceptor

  /** A profiler: its identity (standing for the object reference its proxies
      keep), the instant its session started, and the clock and state its
      proxies share. */
  datatype ProfilerImpl = ProfilerImpl(id: nat, startTime: Instant, shared: Shared)

  /** A proxy implementing `iface` whose handler forwards to `delegate`. It
      holds no state of its own: `owner` names the profiler whose clock and
      state its handler was given. */
  datatype Proxy = Proxy(owner: nat, iface: Interface, delegate: Delegate)

  /** The result of calling a method on a proxy. */
  datatype Called = Called(outcome: Outcome<Value>, profiler: ProfilerImpl)

  /** How opening a file for appending turns out: the open itself throws, or a
      writer with the given budget is returned. */
  datatype Opening = OpenFails(message: string) | Opens(budget: Budget)

  /** The constructor: rejects a null clock, and reads the clock once for the
      session's start time. `id` is the identity of the new object. */
  function New(id: nat, clock: Option<Clock>): (r: Outcome<ProfilerImpl>)
    ensures r.Threw? <==> clock.None?
    ensures r.Ok? ==> r.value.id == id
    ensures clock.None? ==> r.exception == NullPointerException
    ensures r.Ok? ==> r.value.startTime == clock.value.at(clock.value.used)
    ensures r.Ok? ==> r.value.shared.clock == Clock(clock.value.at, clock.value.used + 1)
    ensures r.Ok? ==> r.value.shared.log == []
  {
    match clock
    case None => Threw(NullPointerException)
    case Some(c) =>
      var now := Read(c);
      Ok(ProfilerImpl(id, now.instant, Shared(now.clock, [])))
  }

  /** Some method the interface declares itself carries `@Profiled`. */
  predicate DeclaresProfiled(k: Interface) {
    exists x :: 0 <= x < |k.declared| && IsProfiled(k.declared[x])
  }

  /** The message of the exception thrown for an interface without profiled
      methods; it has no space between the name and the rest. */
  function NoProfiledMethods(k: Interface): string {
    k.name + "doesn't have profiled methods."
  }

  /** `wrap(klass, delegate)` on profiler `p`. Only the methods `klass`
      declares itself are scanned; a method it inherits cannot make wrapping
      succeed. The proxy's handler is given `p`'s clock and state. */
  method Wrap(p: ProfilerImpl, klass: Option<Interface>, delegate: Option<Delegate>) returns (r: Outcome<Proxy>)
    ensures klass.None? ==> r == Threw(NullPointerException)
    ensures (r.Threw? && r.exception.IllegalArgumentException?) <==>
      klass.Some? && !DeclaresProfiled(klass.value)
    ensures klass.Some? && !DeclaresProfiled(klass.value) ==>
      r.exception == IllegalArgumentException(NoProfiledMethods(klass.value))
    ensures klass.Some? && DeclaresProfiled(klass.value) && delegate.None? ==>
      r == Threw(NullPointerException)
    ensures r.Ok? <==> klass.Some? && DeclaresProfiled(klass.value) && delegate.Some?
    ensures r.Ok? ==> r.value.iface == klass.value && r.value.delegate == delegate.value
    ensures r.Ok? ==> r.value.owner == p.id
  {
    if klass.None? {
      return Threw(NullPointerException);
    }
    var methods := klass.value.declared;
    var profilerFlag := false;
    var i := 0;
    while i < |methods|
      invariant 0 <= i <= |methods|
      invariant profilerFlag <==> exists x :: 0 <= x < i && IsProfiled(methods[x])
    {
      var annotations := methods[i].annotations;
      var k := 0;
      while k < |annotations|
        invariant 0 <= k <= |annotations|
        invariant profilerFlag <==>
          (exists x :: 0 <= x < i && IsProfiled(methods[x])) ||
          (exists j :: 0 <= j < k && annotations[j].Profiled?)
      {
        if annotations[k] == Profiled {
          profilerFlag := true;
          break;
        }
        k := k + 1;
      }
      i := i + 1;
    }
    if !profilerFlag {
      return Threw(IllegalArgumentException(NoProfiledMethods(klass.value)));
    }
    if delegate.None? {
      // `delegate.getClass()` while building the proxy
      return Threw(NullPointerException);
    }
    r := Ok(Proxy(p.id, klass.value, delegate.value));
  }

  /** A call on a proxy: the proxy hands it to its handler, which works on the
      clock and state of the profiler that made the proxy. `m` is not checked
      against `proxy.iface`: a Java proxy only dispatches the interface's
      methods, so lemmas over `CallProxy` also range over calls it never
      makes, which only widens them. */
  function CallProxy(p: ProfilerImpl, proxy: Proxy, m: Method, args: seq<Value>): (r: Called)
    requires proxy.owner == p.id
    // the profiler stays the same object, started at the same time
    ensures r.profiler.id == p.id && r.profiler.startTime == p.startTime
    // the clock's trace is kept and moves on by none or two readings
    ensures r.profiler.shared.clock.at == p.shared.clock.at
    ensures r.profiler.shared.clock.used == p.shared.clock.used || r.profiler.shared.clock.used == p.shared.clock.used + 2
    // the state only grows: earlier records are never changed or dropped
    ensures p.shared.log <= r.profiler.shared.log
    ensures |r.profiler.shared.log| <= |p.shared.log| + 1
  {
    var step := Invoke(p.shared, proxy.delegate, m, args);
    Called(step.outcome, ProfilerImpl(p.id, p.startTime, step.shared))
  }

  /** The report: a header naming the session's start time, the state's own
      rendering, each followed by the line separator. */
  function ReportText(p: ProfilerImpl, sep: string, format: Instant -> string,
                      render: seq<Record> -> string): string
  {
    "Run at " + format(p.startTime) + sep + render(p.shared.log) + sep
  }

  /** `writeData(writer)`: four writes, in order; an `IOException` from any of
      them ends the report there and propagates. */
  function WriteData(p: ProfilerImpl, w: Writer, sep: string, format: Instant -> string,
                     render: seq<Record> -> string): (r: Written)
    ensures r.writer.text == w.text + Prefix(w.budget, ReportText(p, sep, format, render))
    ensures r.error.None? <==> Accepts(w.budget, |ReportText(p, sep, format, render)|)
    ensures r.error.Some? ==> r.error.value.IOException?
  {
    var chunks := ["Run at " + format(p.startTime), sep, render(p.shared.log), sep];
    ReportIsChunks(chunks);
    WriteAll(w, chunks)
  }

  lemma ReportIsChunks(chunks: seq<string>)
    requires |chunks| == 4
    ensures Concat(chunks) == chunks[0] + chunks[1] + chunks[2] + chunks[3]
  {
    assert chunks[3..][1..] == [];
    assert Concat(chunks[3..]) == chunks[3];
    assert chunks[2..][1..] == chunks[3..];
    assert Concat(chunks[2..]) == chunks[2] + chunks[3];
    assert chunks[1..][1..] == chunks[2..];
    assert Concat(chunks[1..]) == chunks[1] + (chunks[2] + chunks[3]);
  }

  /** The contents of a file, an absent file reading as empty. */
  function Contents(fs: FileSystem, path: string): string {
    if path in fs then fs[path] else ""
  }

  /** `writeData(path)`: nothing for a null path; otherwise open the file for
      appending (creating it if absent) and write the report. An
      `IOException` is caught and not rethrown, so the caller never sees one. */
  function WriteDataToPath(p: ProfilerImpl, fs: FileSystem, path: Option<string>, opening: Opening,
                           sep: string, format: Instant -> string,
                           render: seq<Record> -> string): (fs': FileSystem)
    ensures path.None? ==> fs' == fs
    ensures opening.OpenFails? ==> fs' == fs
    ensures path.Some? && opening.Opens? ==> fs'.Keys == fs.Keys + {path.value}
    ensures path.Some? ==> forall q :: q in fs && q != path.value ==> q in fs' && fs'[q] == fs[q]
    ensures path.Some? && opening.Opens? ==>
      fs'[path.value] == Contents(fs, path.value) + Prefix(opening.budget, ReportText(p, sep, format, render))
  {
    match path
    case None => fs
    case Some(file) =>
      match opening
      case OpenFails(_) => fs
      case Opens(budget) =>
        var written := WriteData(p, Writer(Contents(fs, file), budget), sep, format, render);
        fs[file := written.writer.text]
  }
}

=== FILE: sessions.dfy ===
/**
 A session: a sequence of calls, in order, on proxies made by one profiler.
 The lemmas here describe what the shared state holds afterwards and what the
 callers saw.
 */
module Sessions {
  import opened Lang
  import opened Clocks
  import opened Io
  import opened Interceptor
  import opened Profiler

  /** One call on a proxy. */
  datatype Call = Call(proxy: Proxy, target: Method, args: seq<Value>)

  /** What the callers saw, one outcome per call, and the profiler afterwards. */
  datatype Ran = Ran(outcomes: seq<Outcome<Value>>, profiler: ProfilerImpl)

  /** How the call turns out at the delegate. */
  function Response(c: Call): Invocation {
    c.proxy.delegate.respond(c.target, c.args)
  }

  /** The aggregation key of a record: the delegate's class and the method. */
  function KeyOf(r: Record): (string, Method) {
    (r.delegateClass, r.profiledMethod)
  }

  /** The keys of the records, in log order. */
  function Keys(log: seq<Record>): seq<(string, Method)>
  {
    seq(|log|, i requires 0 <= i < |log| => KeyOf(log[i]))
  }

  /** The keys of the profiled calls among `calls`, in call order. */
  function ProfiledKeys(calls: seq<Call>): seq<(string, Method)>
    decreases |calls|
  {
    if |calls| == 0 then []
    else
      (if IsProfiled(calls[0].target) then [(calls[0].proxy.delegate.concreteClass, calls[0].target)] else [])
      + ProfiledKeys(calls[1..])
  }

  /** Every call is made on a proxy that the profiler with identity `id` created. */
  predicate OwnedBy(id: nat, calls: seq<Call>)
    decreases |calls|
  {
    |calls| == 0 || (calls[0].proxy.owner == id && OwnedBy(id, calls[1..]))
  }

  /** The sum of the recorded durations. */
  function TotalDuration(log: seq<Record>): int
    decreases |log|
  {
    if |log| == 0 then 0 else log[0].duration + TotalDuration(log[1..])
  }

  /** The calls, one after the other, all against the same profiler's clock
      and state. */
  function Run(p: ProfilerImpl, calls: seq<Call>): (r: Ran)
    requires OwnedBy(p.id, calls)
    ensures r.profiler.id == p.id
    ensures |r.outcomes| == |calls|
    ensures r.profiler.startTime == p.startTime
    ensures r.profiler.shared.clock.at == p.shared.clock.at
    ensures r.profiler.shared.clock.used == p.shared.clock.used + 2 * |ProfiledKeys(calls)|
    ensures p.shared.log <= r.profiler.shared.log
    ensures Keys(r.profiler.shared.log) == Keys(p.shared.log) + ProfiledKeys(calls)
    decreases |calls|
  {
    if |calls| == 0 then
      Ran([], p)
    else
      var first := CallProxy(p, calls[0].proxy, calls[0].target, calls[0].args);
      CallAddsItsKey(p, calls[0]);
      var rest := Run(first.profiler, calls[1..]);
      Chain(p.shared.log, first.profiler.shared.log, rest.profiler.shared.log);
      Ran([first.outcome] + rest.outcomes, rest.profiler)
  }

  /** Prefixes compose, and so do the keys appended at each step. */
  lemma Chain(a: seq<Record>, b: seq<Record>, c: seq<Record>)
    requires a <= b && b <= c
    ensures a <= c
    ensures forall x, y :: Keys(b) == Keys(a) + x && Keys(c) == Keys(b) + y ==> Keys(c) == Keys(a) + (x + y)
  {
  }

  /** One call: it adds its key to the log if, and only if, its method is
      profiled, reading the clock twice in that case and never otherwise. */
  lemma CallAddsItsKey(p: ProfilerImpl, c: Call)
    requires c.proxy.owner == p.id
    ensures var q := CallProxy(p, c.proxy, c.target, c.args).profiler;
      && q.startTime == p.startTime
      && q.shared.clock.at == p.shared.clock.at
      && q.shared.clock.used == p.shared.clock.used + (if IsProfiled(c.target) then 2 else 0)
      && p.shared.log <= q.shared.log
      && Keys(q.shared.log) == Keys(p.shared.log) + (if IsProfiled(c.target) then [(c.proxy.delegate.concreteClass, c.target)] else [])
  {
  }

  lemma TotalAppend(a: seq<Record>, b: seq<Record>)
    ensures TotalDuration(a + b) == TotalDuration(a) + TotalDuration(b)
    decreases |a|
  {
    if |a| > 0 {
      assert (a + b)[0] == a[0];
      assert (a + b)[1..] == a[1..] + b;
      TotalAppend(a[1..], b);
      assert TotalDuration(a + b) == a[0].duration + TotalDuration(a[1..] + b);
    } else {
      assert a + b == b;
    }
  }

  /** Every caller sees what the delegate produced, whatever the clock read
      and whatever earlier calls recorded; only an `IllegalAccessException` is
      replaced, by a `RuntimeException`. */
  lemma {:induction false} RunIsTransparent(p: ProfilerImpl, calls: seq<Call>)
    requires OwnedBy(p.id, calls)
    ensures forall i :: 0 <= i < |calls| && !Response(calls[i]).AccessDenied? ==>
      Run(p, calls).outcomes[i] == Direct(Response(calls[i]))
    ensures forall i :: 0 <= i < |calls| && Response(calls[i]).AccessDenied? ==>
      Run(p, calls).outcomes[i].Threw? && Run(p, calls).outcomes[i].exception.RuntimeException?
    decreases |calls|
  {
    if |calls| > 0 {
      var first := CallProxy(p, calls[0].proxy, calls[0].target, calls[0].args);
      RunIsTransparent(first.profiler, calls[1..]);
      forall i | 0 < i < |calls|
        ensures Run(p, calls).outcomes[i] == Run(first.profiler, calls[1..]).outcomes[i - 1]
      {
      }
      assert forall i :: 0 < i < |calls| ==> calls[i] == calls[1..][i - 1];
    }
  }

  /** Each key in `ProfiledKeys` comes from a call of a profiled method, keyed
      by that call's delegate class. */
  lemma {:induction false} ProfiledKeysComeFromProfiledCalls(calls: seq<Call>)
    ensures forall j :: 0 <= j < |ProfiledKeys(calls)| ==>
      IsProfiled(ProfiledKeys(calls)[j].1) &&
      (exists i :: 0 <= i < |calls| && calls[i].target == ProfiledKeys(calls)[j].1 &&
        calls[i].proxy.delegate.concreteClass == ProfiledKeys(calls)[j].0)
    decreases |calls|
  {
    if |calls| > 0 {
      ProfiledKeysComeFromProfiledCalls(calls[1..]);
      var head := if IsProfiled(calls[0].target) then [(calls[0].proxy.delegate.concreteClass, calls[0].target)] else [];
      assert ProfiledKeys(calls) == head + ProfiledKeys(calls[1..]);
      forall j | 0 <= j < |ProfiledKeys(calls)|
        ensures IsProfiled(ProfiledKeys(calls)[j].1)
        ensures exists i :: (0 <= i < |calls| && calls[i].target == ProfiledKeys(calls)[j].1 &&
          calls[i].proxy.delegate.concreteClass == ProfiledKeys(calls)[j].0)
      {
        if j < |head| {
          assert calls[0].target == ProfiledKeys(calls)[j].1;
        } else {
          var i :| 0 <= i < |calls[1..]| && calls[1..][i].target == ProfiledKeys(calls[1..])[j - |head|].1 &&
            calls[1..][i].proxy.delegate.concreteClass == ProfiledKeys(calls[1..])[j - |head|].0;
          assert calls[i + 1] == calls[1..][i];
        }
      }
    }
  }

  /** Nothing is ever recorded for an unprofiled method: every record a
      session adds names a profiled method that was called, keyed by the class
      of the delegate it was called on. */
  lemma RunRecordsOnlyProfiledCalls(p: ProfilerImpl, calls: seq<Call>)
    requires OwnedBy(p.id, calls)
    ensures var log := Run(p, calls).profiler.shared.log;
      forall k :: |p.shared.log| <= k < |log| ==>
        IsProfiled(log[k].profiledMethod) &&
        (exists i :: 0 <= i < |calls| && calls[i].target == log[k].profiledMethod &&
          calls[i].proxy.delegate.concreteClass == log[k].delegateClass)
  {
    var log := Run(p, calls).profiler.shared.log;
    var n := |p.shared.log|;
    ProfiledKeysComeFromProfiledCalls(calls);
    forall k | n <= k < |log|
      ensures IsProfiled(log[k].profiledMethod)
      ensures exists i :: (0 <= i < |calls| && calls[i].target == log[k].profiledMethod &&
          calls[i].proxy.delegate.concreteClass == log[k].delegateClass)
    {
      assert KeyOf(log[k]) == Keys(log)[k] == ProfiledKeys(calls)[k - n];
    }
  }

  /** One call against a clock that never goes backwards: a profiled call
      records exactly the time between its two reads, which is non-negative;
      an unprofiled call records nothing. */
  lemma CallWithinElapsed(p: ProfilerImpl, c: Call)
    requires c.proxy.owner == p.id
    requires Monotone(p.shared.clock)
    ensures var q := CallProxy(p, c.proxy, c.target, c.args).profiler;
      var at := p.shared.clock.at;
      var u := p.shared.clock.used;
      && (forall k :: |p.shared.log| <= k < |q.shared.log| ==> q.shared.log[k].duration >= 0)
      && (IsProfiled(c.target) ==> TotalDuration(q.shared.log[|p.shared.log|..]) == at(u + 1) - at(u))
      && (!IsProfiled(c.target) ==> q.shared.log[|p.shared.log|..] == [])
  {
  }

  /** With a clock that never goes backwards, every duration a session records
      is non-negative. Together they never exceed the time between the
      session's first clock read and its last one, and a session that reads
      the clock at all reads it last inside its last profiled call. */
  lemma {:induction false} MonotoneClockBoundsDurations(p: ProfilerImpl, calls: seq<Call>)
    requires OwnedBy(p.id, calls)
    requires Monotone(p.shared.clock)
    ensures var q := Run(p, calls).profiler;
      forall k :: |p.shared.log| <= k < |q.shared.log| ==> q.shared.log[k].duration >= 0
    // a session without profiled calls records no time at all
    ensures var q := Run(p, calls).profiler;
      |ProfiledKeys(calls)| == 0 ==> TotalDuration(q.shared.log[|p.shared.log|..]) == 0
    // otherwise the total is bounded by its first and last readings
    ensures var q := Run(p, calls).profiler;
      |ProfiledKeys(calls)| > 0 ==>
        TotalDuration(q.shared.log[|p.shared.log|..]) <= q.shared.clock.at(q.shared.clock.used - 1) - p.shared.clock.at(p.shared.clock.used)
    // and in any case by the first reading and the clock's next one
    ensures var q := Run(p, calls).profiler;
      TotalDuration(q.shared.log[|p.shared.log|..]) <= q.shared.clock.at(q.shared.clock.used) - p.shared.clock.at(p.shared.clock.used)
    decreases |calls|
  {
    var q := Run(p, calls).profiler;
    var at := p.shared.clock.at;
    var u := p.shared.clock.used;
    var n := |p.shared.log|;
    var log := q.shared.log;
    if |calls| > 0 {
      var mid := CallProxy(p, calls[0].proxy, calls[0].target, calls[0].args).profiler;
      CallAddsItsKey(p, calls[0]);
      CallWithinElapsed(p, calls[0]);
      MonotoneClockBoundsDurations(mid, calls[1..]);
      assert q == Run(mid, calls[1..]).profiler;
      var m := |mid.shared.log|;
      assert log[n..] == mid.shared.log[n..] + log[m..];
      TotalAppend(mid.shared.log[n..], log[m..]);
      forall k | n <= k < |log|
        ensures log[k].duration >= 0
      {
        if k < m {
          assert log[k] == mid.shared.log[k];
        }
      }
      if IsProfiled(calls[0].target) && |ProfiledKeys(calls[1..])| > 0 {
        // the later calls start reading at u + 2, after the head's last read u + 1
        assert at(u + 1) <= at(u + 2);
      }
    } else {
      assert log[n..] == [];
    }
    if |ProfiledKeys(calls)| > 0 {
      assert at(q.shared.clock.used - 1) <= at(q.shared.clock.used);
    }
  }

  /** The duration is not clamped: whenever the clock is set back between the
      two reads of a profiled call, the record that call adds carries the
      negative difference as it is. */
  lemma BackwardClockRecordsNegativeDuration(p: ProfilerImpl, proxy: Proxy, m: Method, args: seq<Value>)
    requires proxy.owner == p.id
    requires IsProfiled(m)
    requires p.shared.clock.at(p.shared.clock.used + 1) < p.shared.clock.at(p.shared.clock.used)
    ensures var log := CallProxy(p, proxy, m, args).profiler.shared.log;
      var at := p.shared.clock.at;
      var u := p.shared.clock.used;
      && |log| == |p.shared.log| + 1
      && log[|p.shared.log|].duration == at(u + 1) - at(u)
      && log[|p.shared.log|].duration < 0
  {
  }

  /** A concrete backward trace: a clock that loses 7 ns per read, right
      after construction, makes the first profiled call record -7 ns. */
  lemma BackwardClockExample()
    ensures var clock := Clock((k: nat) => 1000 - 7 * k, 0);
      var p := New(0, Some(clock)).value;
      var m := Method("fetch", [Profiled]);
      var d := Delegate("ParallelCrawler", (m: Method, args: seq<Value>) => Returned(Null));
      CallProxy(p, Proxy(0, Interface("Crawler", [m], []), d), m, []).profiler.shared.log
        == [Record("ParallelCrawler", m, -7)]
  {
    var m := Method("fetch", [Profiled]);
    assert m.annotations[0].Profiled?;
    assert IsProfiled(m);
  }

  /** Proxies made by one profiler share its state: calls on two proxies it
      created, over different delegates, land in call order in its one log,
      each under its own delegate's class, timed by its one clock. */
  lemma ProxiesShareOneLog(p: ProfilerImpl, a: Proxy, b: Proxy, ma: Method, mb: Method,
                           argsA: seq<Value>, argsB: seq<Value>)
    requires a.owner == p.id && b.owner == p.id
    requires IsProfiled(ma) && IsProfiled(mb)
    ensures var first := CallProxy(p, a, ma, argsA).profiler;
      var second := CallProxy(first, b, mb, argsB).profiler;
      var at := p.shared.clock.at;
      var u := p.shared.clock.used;
      second.shared.log == p.shared.log + [Record(a.delegate.concreteClass, ma, at(u + 1) - at(u)),
                                           Record(b.delegate.concreteClass, mb, at(u + 3) - at(u + 2))]
  {
  }

  /** The session's start time is fixed at construction: however many calls
      were made, every report opens with the same header. */
  lemma ReportHeaderIsFixed(p: ProfilerImpl, calls: seq<Call>, sep: string,
                            format: Instant -> string, render: seq<Record> -> string)
    requires OwnedBy(p.id, calls)
    ensures var header := "Run at " + format(p.startTime);
      header <= ReportText(Run(p, calls).profiler, sep, format, render)
  {
  }

  /** From construction on: the report of a fresh profiler opens, after any
      session on its proxies, with the instant its clock gave when it was
      built. */
  lemma ConstructionFixesReportHeader(id: nat, c: Clock, calls: seq<Call>, sep: string,
                                     format: Instant -> string, render: seq<Record> -> string)
    requires OwnedBy(id, calls)
    ensures var p := New(id, Some(c)).value;
      "Run at " + format(c.at(c.used)) <= ReportText(Run(p, calls).profiler, sep, format, render)
  {
    ReportHeaderIsFixed(New(id, Some(c)).value, calls, sep, format, render);
  }

  /** From construction on: every record in the state of a fresh profiler,
      after any session on its proxies, names a profiled method that was
      called. No unprofiled method ever appears in it. */
  lemma ConstructionRecordsOnlyProfiledCalls(id: nat, c: Clock, calls: seq<Call>)
    requires OwnedBy(id, calls)
    ensures var log := Run(New(id, Some(c)).value, calls).profiler.shared.log;
      forall k :: 0 <= k < |log| ==>
        IsProfiled(log[k].profiledMethod) &&
        (exists i :: 0 <= i < |calls| && calls[i].target == log[k].profiledMethod &&
          calls[i].proxy.delegate.concreteClass == log[k].delegateClass)
  {
    RunRecordsOnlyProfiledCalls(New(id, Some(c)).value, calls);
  }

  /** Writing the report to the same path twice keeps what the file held and
      both reports, in order. */
  lemma AppendKeepsEarlierReports(p1: ProfilerImpl, p2: ProfilerImpl, fs: FileSystem, path: string,
                                  sep: string, format: Instant -> string,
                                  render: seq<Record> -> string)
    ensures var fs1 := WriteDataToPath(p1, fs, Some(path), Opens(Unlimited), sep, format, render);
      var fs2 := WriteDataToPath(p2, fs1, Some(path), Opens(Unlimited), sep, format, render);
      fs2[path] == Contents(fs, path) + ReportText(p1, sep, format, render) + ReportText(p2, sep, format, render)
  {
  }
}
